=== FILE: README.md ===
# Dark Sky client: URL builder model

This project models the request-URL builder of the `darksky` Go client
(`buildURL` in `forecast.go`). It also proves properties of that model in
Dafny. The builder takes an `ApiRequest` (latitude, longitude, access key,
exclude list, language code, unit system). It assembles, in a fixed order and
without escaping anything:

    https://api.darksky.net/forecast/{key}/{lat},{long}?units={units|auto}[&exclude=a,b,c][&lang=xx]

The model has four modules:

- `Text` (`text.dfy`): `Join`, which behaves like Go's `strings.Join`. The
  builder uses it for the exclude list. The module also holds an imperative
  `JoinBuilder` written the way Go writes `Join`. `Cut` and `Split` are the
  inverses that the round-trip proofs need.
- `Forecast` (`forecast.dfy`): the `ApiRequest` datatype and the `url`
  constant. `Url` is the functional specification: the path, the units
  parameter, and the optional exclude and lang parameters, concatenated in
  that order. `BuildUrl` mirrors the source's `bytes.Buffer` appends one by
  one and is proved equal to `Url`. The remaining lemmas state where each
  piece sits in the URL and how long the URL is.
- `UrlParse` (`urlparse.dfy`): a reference reader `ParseUrl`. It is the
  builder's partner and does not exist in the client. It is proved to invert
  the builder in both directions for requests whose fields hold none of the
  delimiters that end them. This shows that the builder copies every field
  verbatim and loses nothing. A concrete lemma shows that, because nothing is
  escaped, two different requests can share a URL when a field does hold a
  delimiter. `ParseUrl` looks for the delimiters in the order the builder
  writes them, so `ParseBuild` is a statement about this reader. It says
  nothing about how another reader splits the same URL. `UrlInjective` is
  about the builder alone, on the requests `UrlSafe` admits.
- `UrlQuery` (`query.dfy`): the URL as a generic reader sees it. The query
  is the text after the first `?` and up to the first `#` (section 3.4 of
  RFC 3986). The parameters are the pieces of the query between `&`s, as
  in HTML form encoding.
  The module proves what such a reader finds, and which parameter
  substrings the URL text contains. It also gives one request
  (`MovedQuery`) for which the reader finds something else, and one
  (`ForgedExclude`) whose URL text holds `&exclude=` although its exclude
  list is empty.

`Url` has no precondition and no error path. Every request, including one
whose key, latitude or longitude is empty, yields a URL, just as `buildURL`
never fails.

Because nothing is escaped, a field holding `&` can add a second `units=`
or an `&exclude=` to the URL. A key holding `?` moves the start of the
query. So the facts "the query has exactly one `units` parameter" and "`&exclude=`
occurs exactly when the exclude list is non-empty" do not hold for every
request. `UrlQuery.UnitsExactlyOnce`, `UrlQuery.ExcludeIff` and
`UrlQuery.LangIff` prove them under `DelimiterFree`. That condition keeps `&`,
`?` and `#` out of the key, the latitude and the longitude, and `&` and `#`
out of the units, the language code and every excluded name. It allows a `/`
in the key and a `,` in the latitude or in an excluded name, which move no
boundary of the query (`UrlQuery.CommasAllowed`). `UrlQuery.ForgedExclude`
and `UrlQuery.MovedQuery` show that `UrlSafe`, the condition of the reader
`ParseUrl`, is not enough.

## Model

| member | source | states |
|---|---|---|
| Forecast.Url | forecast.go:155-178 | The functional specification of the builder. It has no contract of its own. `BuildUrl` proves the builder's appends equal to it. `UrlStartsWithPath`, `UnitsFollowPath`, `OptionalSegments` and `UrlLength` pin down its content. `UrlParse.ParseBuild`, `UrlParse.BuildParse` and the `UrlQuery` lemmas prove that it can be read back. |
| Text.Join | forecast.go:170 | Go's `strings.Join`. It has no contract of its own. `JoinSnoc`, `JoinLength` and `JoinFree` characterize it, `JoinBuilder` proves the loop written the Go way equal to it, and `SplitJoin` and `JoinSplit` prove `Split` its inverse. |
| Forecast.BuildUrl | forecast.go:155-178 | The buffer built by appending the endpoint and `/`, the key and `/`, the latitude and `,`, the longitude, the units text, then the optional exclude and lang texts, equals the four-segment URL specification `Url`. No request is refused. |
| Forecast.UnitsValue | forecast.go:163-167 | The unit system sent is the caller's own value when that value is non-empty, and the default `auto` when it is empty. |
| Forecast.UrlStartsWithPath | forecast.go:158-161 | The URL begins with the endpoint, `/`, the key, `/`, the latitude, `,` and the longitude, in that order and each copied unmodified. |
| Forecast.UnitsFollowPath | forecast.go:163-167 | Right after the longitude comes `?units=` and the caller's units verbatim, or `?units=auto` when the caller's units are empty. |
| Forecast.OptionalSegments | forecast.go:169-175 | After the path and units parameter, the URL ends in one of four ways, chosen by whether the exclude list and the language code are empty. `&exclude=` and the list joined by `,` come only for a non-empty list. `&lang=` and the code come only for a non-empty code, and always last. |
| Forecast.UrlLength | forecast.go:156-177 | The URL's length is the length of the fixed text plus the length of every copied field. The exclude list adds its total length plus one separator between each pair, so no character is dropped or added by escaping. |
| Text.JoinSnoc | forecast.go:170 | Joining a single element gives that element. Joining `xs + [x]` for a non-empty `xs` gives the join of `xs`, the separator, then `x`. |
| Text.JoinLength | forecast.go:170 | A non-empty list joins to text whose length is the sum of the element lengths plus one separator length per adjacent pair. |
| Text.JoinFree | forecast.go:170 | A character other than the separator occurs in the joined text exactly when it occurs in some element. |
| Text.JoinBuilder | forecast.go:170 | Writing the first element and then a separator and an element for each remaining one yields exactly `Join`. |
| Text.SplitJoin | forecast.go:170 | Splitting the joined exclude text at `,` gives back the original list, in order, with nothing sorted or removed, provided no element contains `,`. |
| Text.JoinSplit | forecast.go:170 | Joining the pieces of any split text with the split character gives back the text. |
| UrlParse.Normalize | forecast.go:163-167 | The normal form of a request keeps every field except the unit system, which becomes `auto` when empty. A request with non-empty units is its own normal form. |
| UrlParse.SameUrlAsNormal | forecast.go:163-167 | Empty units and the explicit default `auto` produce the same URL. |
| UrlParse.ParseBuild | forecast.go:155-178 | Reading back a URL-safe request's URL returns that request, with empty units read as `auto`. So the key, coordinates, units, exclude list (in order) and language code all reach the URL unchanged. |
| UrlParse.BuildParse | forecast.go:155-178 | Every URL the reader accepts is exactly the URL the builder writes for the request it reads, and that request is URL-safe with explicit units. |
| UrlParse.UrlInjective | forecast.go:155-178 | For URL-safe requests, two URLs are equal if and only if the requests agree once empty units are read as `auto`. |
| UrlParse.AmbiguousWithoutEscaping | forecast.go:158-170 | Because nothing is escaped, a latitude holding `,` and an exclude name holding `,` give two different requests the same URL. |
| UrlQuery.QueryOfUrl | forecast.go:158-175 | For a request with no `&`, `?` or `#` in the key and coordinates and no `&` or `#` in any query value (`DelimiterFree`), the URL's first `?` is the one written before `units=`. The URL holds no `#`. The query a generic reader takes is the parameters joined by `&`. |
| UrlQuery.ParamsOfUrl | forecast.go:163-175 | For such a request, a generic reader splits the query into exactly the parameters the builder wrote, in order: `units`, then `exclude` for a non-empty list, then `lang` for a non-empty code. |
| UrlQuery.UnitsExactlyOnce | forecast.go:163-167 | For such a request, the reader's first parameter is `units=` with the caller's unit system or `auto`. No later parameter is named `units`, and `&units=` occurs nowhere in the URL. |
| UrlQuery.ExcludeIff | forecast.go:169-171 | For such a request, `&exclude=` occurs in the URL exactly when the exclude list is non-empty. The reader finds an `exclude` parameter under the same condition. |
| UrlQuery.LangIff | forecast.go:173-175 | For such a request, `&lang=` occurs in the URL exactly when the language code is non-empty. The reader finds a `lang` parameter under the same condition. |
| UrlQuery.KeyInUrl | forecast.go:158-159 | For every request, the key is copied into the URL unmodified, right after the endpoint and its `/`. |
| UrlQuery.ForgedExclude | forecast.go:158-159 | A request that satisfies `UrlSafe` and has an empty exclude list still has `&exclude=` in its URL when its key contains that text. |
| UrlQuery.MovedQuery | forecast.go:158-164 | A request that satisfies `UrlSafe` but whose key holds `?` gets a URL whose query, as a generic reader takes it, is not the parameters the builder wrote. |
| UrlQuery.CommasAllowed | forecast.go:158-170 | A request with `,` in the latitude and in an excluded name and `/` in the key, which the builder accepts like any other, meets the condition of the query lemmas but not `UrlSafe`. |

## Left out

- `getResponse` (forecast.go:181-203) is left out. It does network I/O with `net/http` under a 10-second client timeout, closes the body in a deferred call, and logs. None of this is pure computation.
- `decodeJSON` (forecast.go:206-214) is left out. It is a thin wrapper over Go's `encoding/json` decoder, whose behaviour is not part of this model.
- The response types `Forecast`, `Currently`, `Daily`, `DailyData`, `Hourly`, `HourlyData`, `Minutely`, `MinutelyData` and `AlertData` (forecast.go:26-145) are left out. They are passive records of floating-point fields with JSON tags and no logic. This includes the `"string"` tag on `Minutely.Summary` and the missing `Minutely` field in `Forecast`.
- `GetForecast` (forecast.go:148-152) is left out. It only passes the built URL to `getResponse`.
- Logging through the process-wide `log` package is left out. It never affects the returned value.
- Forecast.UrlLength: counts characters, whereas Go's strings are byte sequences. The builder's only use of `len` is an emptiness test, which agrees in both readings, but the length equation is stated in characters, not in UTF-8 bytes.
- `UrlParse` is not part of the client. It exists only to state what the builder preserves.
- `UrlQuery` finds the query by section 3.4 of RFC 3986 and splits it by the `&` convention of HTML form encoding. It does not percent-decode, because the builder encodes nothing.

=== FILE: forecast.dfy ===
/** The Dark Sky client's URL builder.

  A request names a location, an access key and three optional settings. The
  builder assembles them, in a fixed order and without any escaping, into
  `{base}/{key}/{lat},{long}?units={units|auto}[&exclude=a,b,c][&lang=xx]`.
 */
module Forecast {
  import opened Text

  /** The API endpoint every URL starts with. */
  const BaseUrl: string := "https://api.darksky.net/forecast"

  /** The unit system sent when the request names none. */
  const DefaultUnits: string := "auto"

  /** The separator placed between the names in the exclude list. */
  const ExcludeSeparator: string := ","

  /** The caller's request. Every field is copied into the URL as it is;
      none is checked, and empty strings are allowed everywhere. */
  datatype ApiRequest = ApiRequest(
    lat: string,
    long: string,
    key: string,
    exclude: seq<string>,
    lang: string,
    units: string)

  /** The unit system the URL asks for. */
  function UnitsValue(req: ApiRequest): (v: string)
    ensures |v| > 0
    ensures |req.units| > 0 ==> v == req.units
    ensures |req.units| == 0 ==> v == DefaultUnits
  {
    if |req.units| > 0 then req.units else DefaultUnits
  }

  /** The key and the coordinates, as they appear in the URL's path. */
  function KeyAndPlace(req: ApiRequest): string
  {
    req.key + "/" + req.lat + "," + req.long
  }

  /** The mandatory part: endpoint, key and coordinates. */
  function PathSegment(req: ApiRequest): string
  {
    BaseUrl + "/" + KeyAndPlace(req)
  }

  /** The `units` query parameter, always present. */
  function UnitsParam(req: ApiRequest): string
  {
    "units=" + UnitsValue(req)
  }

  /** The `exclude` query parameter, used only for a non-empty list. */
  function ExcludeParam(req: ApiRequest): string
  {
    "exclude=" + Join(req.exclude, ExcludeSeparator)
  }

  /** The `lang` query parameter, used only for a non-empty language code. */
  function LangParam(req: ApiRequest): string
  {
    "lang=" + req.lang
  }

  /** The mandatory `units` segment, which opens the query. */
  function UnitsSegment(req: ApiRequest): string
  {
    "?" + UnitsParam(req)
  }

  /** The optional `exclude` segment; empty when the list is. */
  function ExcludeSegment(req: ApiRequest): string
  {
    if |req.exclude| > 0 then "&" + ExcludeParam(req) else ""
  }

  /** The optional `lang` segment; empty when the language code is. */
  function LangSegment(req: ApiRequest): string
  {
    if |req.lang| > 0 then "&" + LangParam(req) else ""
  }

  /** The URL of a request: the four segments in their fixed order. */
  function Url(req: ApiRequest): string
  {
    PathSegment(req) + UnitsSegment(req) + ExcludeSegment(req) + LangSegment(req)
  }

  /** The segments spelled with the literals the builder appends. */
  lemma SegmentLiterals(req: ApiRequest)
    ensures |req.units| > 0 ==> UnitsSegment(req) == "?units=" + req.units
    ensures |req.units| == 0 ==> UnitsSegment(req) == "?units=auto"
    ensures |req.exclude| > 0 ==> ExcludeSegment(req) == "&exclude=" + Join(req.exclude, ",")
    ensures |req.lang| > 0 ==> LangSegment(req) == "&lang=" + req.lang
  {
  }

  /** The path written piece by piece, as the builder writes it. */
  lemma PathPieces(req: ApiRequest)
    ensures PathSegment(req) == (BaseUrl + "/") + (req.key + "/") + (req.lat + ",") + req.long
  {
  }

  /** The builder as written: one buffer, with one append per piece. Its
      result is the four-segment URL, and no request is refused. */
  method BuildUrl(req: ApiRequest) returns (url: string)
    ensures url == Url(req)
  {
    PathPieces(req);
    SegmentLiterals(req);
    var buffer := "";
    buffer := buffer + (BaseUrl + "/");
    assert buffer == BaseUrl + "/";
    buffer := buffer + (req.key + "/");
    buffer := buffer + (req.lat + ",");
    buffer := buffer + req.long;
    assert buffer == PathSegment(req);

    if |req.units| > 0 {
      buffer := buffer + ("?units=" + req.units);
    } else {
      buffer := buffer + "?units=auto";
    }
    assert buffer == PathSegment(req) + UnitsSegment(req);

    if |req.exclude| > 0 {
      var joined := JoinBuilder(req.exclude, ExcludeSeparator);
      buffer := buffer + ("&exclude=" + joined);
    }
    assert buffer == PathSegment(req) + UnitsSegment(req) + ExcludeSegment(req);

    if |req.lang| > 0 {
      buffer := buffer + ("&lang=" + req.lang);
    }

    url := buffer;
  }

  /** The URL starts with the endpoint, `/`, the key, `/`, the latitude, `,`
      and the longitude, in that order and each copied unmodified. */
  lemma UrlStartsWithPath(req: ApiRequest)
    ensures BaseUrl + "/" + req.key + "/" + req.lat + "," + req.long <= Url(req)
  {
    var rest := UnitsSegment(req) + ExcludeSegment(req) + LangSegment(req);
    assert Url(req) == PathSegment(req) + rest by {
      Assoc(PathSegment(req), UnitsSegment(req) + ExcludeSegment(req), LangSegment(req));
      Assoc(PathSegment(req), UnitsSegment(req), ExcludeSegment(req));
    }
    var b, k, la, lo := BaseUrl + "/", req.key, req.lat, req.long;
    calc {
      PathSegment(req);
      b + ((k + "/" + la + ",") + lo);
      { Assoc(b, k + "/" + la + ",", lo); }
      (b + (k + "/" + la + ",")) + lo;
      { Assoc(b, k + "/" + la, ","); }
      (b + (k + "/" + la)) + "," + lo;
      { Assoc(b, k + "/", la); }
      (b + (k + "/")) + la + "," + lo;
      { Assoc(b, k, "/"); }
      b + k + "/" + la + "," + lo;
    }
  }

  /** Right after the longitude comes `?units=` and the caller's unit system
      verbatim, or `?units=auto` when the caller gave none. */
  lemma UnitsFollowPath(req: ApiRequest)
    ensures |req.units| > 0 ==> PathSegment(req) + "?units=" + req.units <= Url(req)
    ensures |req.units| == 0 ==> PathSegment(req) + "?units=auto" <= Url(req)
  {
    // Unaided, the solver can exceed its resource limit; these steps keep it in.
    SegmentLiterals(req);
    var head := PathSegment(req) + UnitsSegment(req);
    assert Url(req) == head + (ExcludeSegment(req) + LangSegment(req)) by {
      Assoc(head, ExcludeSegment(req), LangSegment(req));
    }
  }

  /** What follows the units parameter: `&exclude=` and the exclude list
      joined by `,` in the caller's order exactly when the list is non-empty,
      then `&lang=` and the language code exactly when it is non-empty. */
  lemma OptionalSegments(req: ApiRequest)
    ensures var head := PathSegment(req) + UnitsSegment(req);
      && (|req.exclude| == 0 && |req.lang| == 0 ==> Url(req) == head)
      && (|req.exclude| == 0 && |req.lang| > 0 ==> Url(req) == head + "&lang=" + req.lang)
      && (|req.exclude| > 0 && |req.lang| == 0 ==> Url(req) == head + "&exclude=" + Join(req.exclude, ","))
      && (|req.exclude| > 0 && |req.lang| > 0 ==>
            Url(req) == head + "&exclude=" + Join(req.exclude, ",") + "&lang=" + req.lang)
  {
    SegmentLiterals(req);
  }

  /** Nothing is dropped and nothing is escaped: the length of the URL is the
      length of the fixed text plus the length of every field it copies. */
  lemma UrlLength(req: ApiRequest)
    ensures |Url(req)| ==
      |BaseUrl| + 3 + |req.key| + |req.lat| + |req.long|
      + 7 + (if |req.units| > 0 then |req.units| else 4)
      + (if |req.exclude| > 0 then 9 + TotalLength(req.exclude) + |req.exclude| - 1 else 0)
      + (if |req.lang| > 0 then 6 + |req.lang| else 0)
  {
    if |req.exclude| > 0 {
      JoinLength(req.exclude, ExcludeSeparator);
    }
  }
}

=== FILE: query.dfy ===
/** The URL as any generic reader sees it.

  A URL's query is the text after its first `?`, up to its first `#`
  (section 3.4 of RFC 3986), and its parameters are the pieces of the query
  between `&`s (the HTML form encoding). The builder escapes nothing, so what
  such a reader finds depends on the fields: this module states, for requests
  whose path holds no `&`, `?` or `#` and whose query values hold no `&` or
  `#`, that the reader sees exactly the parameters the builder meant, with one
  `units` parameter and `exclude` and `lang` exactly when they were given. The
  substring facts (`&exclude=` occurs exactly when the list is non-empty) are
  stated on the URL text itself, with no reader involved.
 */
module UrlQuery {
  import opened Text
  import opened Forecast
  import opened UrlParse

  /** Text holding none of the characters that end a URL's path. */
  predicate PathFree(s: string)
  {
    '&' !in s && '?' !in s && '#' !in s
  }

  /** No field holds a character that would move a boundary of the URL's
      query or of its parameters: none of `&`, `?`, `#` in the key or the
      coordinates, and neither `&` nor `#` in any query value. A `/` in the
      key or a `,` in the latitude or an excluded name moves no such
      boundary and is allowed. */
  predicate DelimiterFree(req: ApiRequest)
  {
    && ParamsSafe(req)
    && PathFree(req.key) && PathFree(req.lat) && PathFree(req.long)
    && '#' !in req.units && '#' !in req.lang
    && forall i :: 0 <= i < |req.exclude| ==> '#' !in req.exclude[i]
  }

  /** The query of a URL: what follows the first `?`, up to the first `#`.
      Empty when there is no `?`. A `#` before the first `?` is not looked
      for, so this reading is RFC 3986's only for URLs whose first `#`, if
      any, follows their first `?`. */
  function Query(u: string): (q: string)
    ensures '#' !in q
    ensures '?' in u ==> Occurs(q, u)
  {
    match Cut(u, '?')
    case None => ""
    case Some((path, rest)) =>
      CutOccurs(u, '?');
      match Cut(rest, '#')
      case None => rest
      case Some((q, _)) =>
        CutOccurs(rest, '#');
        OccursWithin(q, rest, u, 0, |path| + 1);
        q
  }

  /** The parameters of a URL's query, split at `&`. */
  function QueryParams(u: string): (ps: seq<string>)
    ensures |ps| > 0
    ensures forall i :: 0 <= i < |ps| ==> '&' !in ps[i] && '#' !in ps[i]
  {
    var q := Query(u);
    var ps := Split(q, '&');
    JoinSplit(q, '&');
    forall i | 0 <= i < |ps|
      ensures '#' !in ps[i]
    {
      JoinFree(ps, "&", '#');
    }
    ps
  }

  /** `name` followed by anything starts with `name`. */
  lemma NamePrefix(name: string, value: string)
    ensures name <= name + value
  {
    assert (name + value)[..|name|] == name;
  }

  /** Text starting with one character does not start with a name that
      starts with another. */
  lemma OtherName(name: string, other: string, value: string)
    requires |name| > 0 && |other| > 0 && name[0] != other[0]
    ensures !(name <= other + value)
  {
    assert (other + value)[0] == other[0];
  }

  /** The patterns searched for, spelled as `&` followed by a name. */
  lemma PatternLiterals()
    ensures "&units=" == ['&'] + "units="
    ensures "&exclude=" == ['&'] + "exclude="
    ensures "&lang=" == ['&'] + "lang="
  {
  }

  /** A URL has no fragment when no field holds `#`. */
  lemma NoFragment(req: ApiRequest)
    requires '#' !in req.key && '#' !in req.lat && '#' !in req.long
    requires '#' !in req.units && '#' !in req.lang
    requires forall i :: 0 <= i < |req.exclude| ==> '#' !in req.exclude[i]
    ensures '#' !in PathSegment(req)
    ensures '#' !in Join(Params(req), "&")
    ensures '#' !in Url(req)
  {
    var ps := Params(req);
    BaseUrlFree();
    assert '#' !in "units=" && '#' !in "exclude=" && '#' !in "lang=" && '#' !in DefaultUnits;
    if |req.exclude| > 0 {
      JoinFree(req.exclude, ExcludeSeparator, '#');
    }
    forall i | 0 <= i < |ps|
      ensures '#' !in ps[i]
    {
    }
    JoinFree(ps, "&", '#');
    UrlAsParams(req);
  }

  /** The endpoint and its `/` hold none of `&`, `?` and `#`. */
  lemma BaseUrlLacks(c: char)
    requires c in "&?#"
    ensures c !in BaseUrl + "/"
  {
  }

  /** The endpoint and its `/` hold none of the path delimiters. */
  lemma BaseUrlFree()
    ensures PathFree(BaseUrl + "/")
  {
    BaseUrlLacks('&');
    BaseUrlLacks('?');
    BaseUrlLacks('#');
  }

  /** The path of the URL holds none of `&`, `?` and `#`. */
  lemma PathSegmentFree(req: ApiRequest)
    requires DelimiterFree(req)
    ensures PathFree(PathSegment(req))
  {
    BaseUrlFree();
  }

  /** The key is copied into the URL right after the endpoint and its `/`. */
  lemma KeyInUrl(req: ApiRequest)
    ensures OccursAt(req.key, Url(req), |BaseUrl| + 1)
  {
    var place := KeyAndPlace(req);
    var rest := UnitsSegment(req) + ExcludeSegment(req) + LangSegment(req);
    assert Url(req) == BaseUrl + "/" + place + rest by {
      Assoc(PathSegment(req), UnitsSegment(req) + ExcludeSegment(req), LangSegment(req));
      Assoc(PathSegment(req), UnitsSegment(req), ExcludeSegment(req));
    }
    InfixOccurs(BaseUrl + "/", place, rest);
    assert OccursAt(req.key, place, 0) by {
      assert place[..|req.key|] == req.key;
    }
    OccursWithin(req.key, place, Url(req), 0, |BaseUrl| + 1);
  }

  /** In a URL without `#` the query is everything after the first `?`. */
  lemma QueryWithoutFragment(u: string)
    requires '#' !in u && '?' in u
    ensures Query(u) == Cut(u, '?').value.1
  {
  }

  /** The URL's first `?` is the one after the longitude, and the URL has no
      `#`: its query is the parameters joined by `&`, and nothing follows. */
  lemma QueryOfUrl(req: ApiRequest)
    requires DelimiterFree(req)
    ensures Cut(Url(req), '?') == Some((PathSegment(req), Join(Params(req), "&")))
    ensures '#' !in Url(req)
    ensures Query(Url(req)) == Join(Params(req), "&")
  {
    var path, query := PathSegment(req), Join(Params(req), "&");
    UrlAsParams(req);
    PathSegmentFree(req);
    NoFragment(req);
    CutFirst(path, '?', query);
    QueryWithoutFragment(Url(req));
  }

  /** A generic reader finds exactly the parameters the builder wrote, in
      the order it wrote them. */
  lemma ParamsOfUrl(req: ApiRequest)
    requires DelimiterFree(req)
    ensures QueryParams(Url(req)) == Params(req)
  {
    QueryOfUrl(req);
    SplitParams(req);
  }

  /** `&` followed by a parameter name occurs in the URL exactly when some
      parameter after `units` starts with that name. */
  lemma NamedParamOccurs(req: ApiRequest, name: string)
    requires DelimiterFree(req)
    requires '&' !in name
    ensures Occurs(['&'] + name, Url(req)) <==>
      exists i :: 1 <= i < |Params(req)| && name <= Params(req)[i]
  {
    UrlAsParams(req);
    PathSegmentFree(req);
    ParamsFree(req);
    OccursInJoin(PathSegment(req) + "?", Params(req), '&', name);
  }

  /** For a name the `units` parameter does not start with, a generic
      reader finds a parameter of that name exactly when `&` and the name
      occur in the URL, and exactly when a parameter after `units` starts
      with it. */
  lemma ParamPresent(req: ApiRequest, name: string)
    requires DelimiterFree(req)
    requires '&' !in name
    requires !(name <= UnitsParam(req))
    ensures var ps := QueryParams(Url(req));
      (exists i :: 0 <= i < |ps| && name <= ps[i]) <==> Occurs(['&'] + name, Url(req))
    ensures var ps := QueryParams(Url(req));
      (exists i :: 0 <= i < |ps| && name <= ps[i]) <==>
      (exists i :: 1 <= i < |Params(req)| && name <= Params(req)[i])
  {
    ParamsOfUrl(req);
    NamedParamOccurs(req, name);
    LaterParams(req);
    var ps := Params(req);
    if exists i :: 0 <= i < |ps| && name <= ps[i] {
      var i :| 0 <= i < |ps| && name <= ps[i];
      assert 1 <= i;
    }
    if exists i :: 1 <= i < |ps| && name <= ps[i] {
      var i :| 1 <= i < |ps| && name <= ps[i];
      assert 0 <= i < |ps| && name <= ps[i];
    }
  }

  /** The parameters after the first are `exclude` for a non-empty list,
      then `lang` for a non-empty code. */
  lemma LaterParams(req: ApiRequest)
    ensures Params(req)[0] == UnitsParam(req)
    ensures Params(req)[1..] ==
      (if |req.exclude| > 0 then [ExcludeParam(req)] else [])
      + (if |req.lang| > 0 then [LangParam(req)] else [])
  {
  }

  /** Only the first parameter is named `units`. */
  lemma UnitsNamed(req: ApiRequest)
    ensures "units=" <= Params(req)[0]
    ensures forall i :: 1 <= i < |Params(req)| ==> !("units=" <= Params(req)[i])
  {
    var ps := Params(req);
    LaterParams(req);
    NamePrefix("units=", UnitsValue(req));
    OtherName("units=", "exclude=", Join(req.exclude, ExcludeSeparator));
    OtherName("units=", "lang=", req.lang);
    forall i | 1 <= i < |ps|
      ensures !("units=" <= ps[i])
    {
      assert ps[i] == ps[1..][i - 1];
    }
  }

  /** A parameter after `units` is named `exclude` exactly when the list is
      non-empty. */
  lemma ExcludeNamed(req: ApiRequest)
    ensures (exists i :: 1 <= i < |Params(req)| && "exclude=" <= Params(req)[i]) <==> |req.exclude| > 0
  {
    var ps := Params(req);
    LaterParams(req);
    if |req.exclude| > 0 {
      assert ps[1] == ps[1..][0] == ExcludeParam(req);
      NamePrefix("exclude=", Join(req.exclude, ExcludeSeparator));
    } else {
      OtherName("exclude=", "lang=", req.lang);
      forall i | 1 <= i < |ps|
        ensures !("exclude=" <= ps[i])
      {
        assert ps[i] == ps[1..][i - 1] == LangParam(req);
      }
    }
  }

  /** A parameter after `units` is named `lang` exactly when the code is
      non-empty. */
  lemma LangNamed(req: ApiRequest)
    ensures (exists i :: 1 <= i < |Params(req)| && "lang=" <= Params(req)[i]) <==> |req.lang| > 0
  {
    var ps := Params(req);
    LaterParams(req);
    if |req.lang| > 0 {
      var last := |ps| - 1;
      assert ps[last] == ps[1..][last - 1] == LangParam(req);
      NamePrefix("lang=", req.lang);
    } else {
      OtherName("lang=", "exclude=", Join(req.exclude, ExcludeSeparator));
      forall i | 1 <= i < |ps|
        ensures !("lang=" <= ps[i])
      {
        assert ps[i] == ps[1..][i - 1] == ExcludeParam(req);
      }
    }
  }

  /** The query has exactly one `units` parameter, first, carrying the
      caller's unit system or `auto`; no `&units=` occurs anywhere. */
  lemma UnitsExactlyOnce(req: ApiRequest)
    requires DelimiterFree(req)
    ensures QueryParams(Url(req))[0] == "units=" + UnitsValue(req)
    ensures forall i :: 1 <= i < |QueryParams(Url(req))| ==> !("units=" <= QueryParams(Url(req))[i])
    ensures !Occurs("&units=", Url(req))
  {
    ParamsOfUrl(req);
    UnitsNamed(req);
    NamedParamOccurs(req, "units=");
    PatternLiterals();
  }

  /** `&exclude=` occurs in the URL exactly when the exclude list is
      non-empty, and so does an `exclude` parameter. */
  lemma ExcludeIff(req: ApiRequest)
    requires DelimiterFree(req)
    ensures Occurs("&exclude=", Url(req)) <==> |req.exclude| > 0
    ensures (exists i :: 0 <= i < |QueryParams(Url(req))| && "exclude=" <= QueryParams(Url(req))[i])
      <==> |req.exclude| > 0
  {
    OtherName("exclude=", "units=", UnitsValue(req));
    ParamPresent(req, "exclude=");
    ExcludeNamed(req);
    PatternLiterals();
  }

  /** `&lang=` occurs in the URL exactly when the language code is
      non-empty, and so does a `lang` parameter. */
  lemma LangIff(req: ApiRequest)
    requires DelimiterFree(req)
    ensures Occurs("&lang=", Url(req)) <==> |req.lang| > 0
    ensures (exists i :: 0 <= i < |QueryParams(Url(req))| && "lang=" <= QueryParams(Url(req))[i])
      <==> |req.lang| > 0
  {
    OtherName("lang=", "units=", UnitsValue(req));
    ParamPresent(req, "lang=");
    LangNamed(req);
    PatternLiterals();
  }

  /** The query facts cover requests the reader `ParseUrl` cannot read back:
      a `,` in the latitude or in an excluded name, or a `/` in the key. */
  lemma CommasAllowed()
    ensures var r := ApiRequest("1,5", "2", "a/b", ["minutely,hourly"], "", "si");
      DelimiterFree(r) && !UrlSafe(r)
  {
  }

  /** `UrlSafe` alone is not enough: a key holding `&exclude=` puts
      `&exclude=` in the URL of a request with no exclude list. */
  lemma ForgedExclude()
    ensures var a := ApiRequest("1", "2", "x&exclude=y", [], "", "");
      UrlSafe(a) && |a.exclude| == 0 && Occurs("&exclude=", Url(a))
  {
    var a := ApiRequest("1", "2", "x&exclude=y", [], "", "");
    assert OccursAt("&exclude=", a.key, 1);
    KeyInUrl(a);
    OccursWithin("&exclude=", a.key, Url(a), 1, |BaseUrl| + 1);
  }

  /** `UrlSafe` alone is not enough: a key holding `?` moves the start of
      the query, so a generic reader no longer sees the parameters. */
  lemma MovedQuery()
    ensures var b := ApiRequest("1", "2", "k?a", [], "", "");
      UrlSafe(b) && Query(Url(b)) != Join(Params(b), "&")
  {
    var b := ApiRequest("1", "2", "k?a", [], "", "");
    var u, at := Url(b), |BaseUrl| + 1;
    NoFragment(b);
    UrlAsParams(b);
    KeyInUrl(b);
    assert u[at + 1] == u[at..at + 3][1] == '?';
    SeparatorAt(u, '?', at + 1);
    QueryWithoutFragment(u);
  }
}

=== FILE: text.dfy ===
/** String helpers for the URL builder.

  `Join` is the behaviour of Go's `strings.Join`, which the builder uses to
  glue the exclude list together. `Cut` and `Split` are its inverse: they are
  not part of the client, but they let the model read a built URL back and so
  state that the builder loses nothing.
 */
module Text {

  datatype Option<T> = None | Some(value: T)

  /** Regrouping a concatenation of three strings. */
  lemma Assoc(a: string, b: string, c: string)
    ensures a + (b + c) == a + b + c
  {
  }

  /** Regrouping a concatenation of four strings. */
  lemma Assoc4(a: string, b: string, c: string, d: string)
    ensures (a + b) + (c + d) == a + (b + c + d)
    ensures a + b + (c + d) == a + (b + c + d)
  {
  }

  /** Sum of the lengths of all the strings in `xs`. */
  function TotalLength(xs: seq<string>): nat
  {
    if |xs| == 0 then 0 else |xs[0]| + TotalLength(xs[1..])
  }

  /** Go's `strings.Join`: the elements in their original order, with `sep`
      between adjacent elements and nowhere else. */
  function Join(xs: seq<string>, sep: string): string
  {
    if |xs| == 0 then ""
    else if |xs| == 1 then xs[0]
    else xs[0] + sep + Join(xs[1..], sep)
  }

  /** The joined text is exactly as long as the elements plus one separator
      between each adjacent pair. */
  lemma {:induction false} JoinLength(xs: seq<string>, sep: string)
    requires |xs| > 0
    ensures |Join(xs, sep)| == TotalLength(xs) + (|xs| - 1) * |sep|
    decreases |xs|
  {
    if |xs| > 1 {
      JoinLength(xs[1..], sep);
      assert (|xs| - 1) * |sep| == |sep| + (|xs| - 2) * |sep|;
    }
  }

  /** Appending an element to a non-empty list appends the separator and the
      element to the joined text; a single element joins to itself. */
  lemma {:induction false} JoinSnoc(xs: seq<string>, x: string, sep: string)
    ensures Join(xs + [x], sep) == if |xs| == 0 then x else Join(xs, sep) + sep + x
    decreases |xs|
  {
    if |xs| == 0 {
      assert xs + [x] == [x];
    } else if |xs| == 1 {
      assert xs + [x] == [xs[0], x];
      assert [xs[0], x][1..] == [x];
    } else {
      var ys := xs + [x];
      assert ys[0] == xs[0];
      assert ys[1..] == xs[1..] + [x];
      JoinSnoc(xs[1..], x, sep);
      calc {
        Join(ys, sep);
        xs[0] + sep + Join(xs[1..] + [x], sep);
        xs[0] + sep + (Join(xs[1..], sep) + sep + x);
        (xs[0] + sep + Join(xs[1..], sep)) + sep + x;
      }
    }
  }

  /** A character that is not the separator's occurs in the joined text
      exactly when it occurs in one of the elements. */
  lemma {:induction false} JoinFree(xs: seq<string>, sep: string, c: char)
    requires c !in sep
    ensures c !in Join(xs, sep) <==> forall i :: 0 <= i < |xs| ==> c !in xs[i]
    decreases |xs|
  {
    if |xs| > 1 {
      JoinFree(xs[1..], sep, c);
      assert forall i :: 1 <= i < |xs| ==> xs[i] == xs[1..][i - 1];
    }
  }

  /** Go's `strings.Join` as it is written: one builder, the first element,
      then a separator and an element for each remaining one. */
  method JoinBuilder(xs: seq<string>, sep: string) returns (r: string)
    ensures r == Join(xs, sep)
  {
    if |xs| == 0 {
      return "";
    }
    r := xs[0];
    var i := 1;
    while i < |xs|
      invariant 1 <= i <= |xs|
      invariant r == Join(xs[..i], sep)
    {
      JoinSnoc(xs[..i], xs[i], sep);
      assert xs[..i + 1] == xs[..i] + [xs[i]];
      r := r + sep + xs[i];
      i := i + 1;
    }
    assert xs[..i] == xs;
  }

  /** Splits `s` at the first occurrence of `c`: the part before it (free of
      `c`) and the part after it. `None` exactly when `c` does not occur. */
  function Cut(s: string, c: char): (r: Option<(string, string)>)
    ensures r.None? <==> c !in s
    ensures r.Some? ==> s == r.value.0 + [c] + r.value.1 && c !in r.value.0
  {
    if |s| == 0 then None
    else if s[0] == c then Some(([], s[1..]))
    else match Cut(s[1..], c)
      case None => None
      case Some((a, b)) =>
        assert s == [s[0]] + s[1..];
        Some(([s[0]] + a, b))
  }

  /** The first occurrence of `c` is found, whatever follows it. */
  lemma {:induction false} CutFirst(a: string, c: char, b: string)
    requires c !in a
    ensures Cut(a + [c] + b, c) == Some((a, b))
    decreases |a|
  {
    var s := a + [c] + b;
    if |a| == 0 {
      assert s == [c] + b;
    } else {
      assert s[0] == a[0] != c;
      assert s[1..] == a[1..] + [c] + b;
      CutFirst(a[1..], c, b);
      assert [a[0]] + a[1..] == a;
    }
  }

  /** Splits `s` at every occurrence of `c`, like Go's `strings.Split` with a
      one-character separator: at least one piece, and no piece contains `c`. */
  function Split(s: string, c: char): (r: seq<string>)
    ensures |r| > 0
    ensures forall i :: 0 <= i < |r| ==> c !in r[i]
    decreases |s|
  {
    match Cut(s, c)
    case None => [s]
    case Some((a, b)) => [a] + Split(b, c)
  }

  /** Splitting text that holds the separator before `b` peels off one piece. */
  lemma SplitCons(a: string, c: char, b: string)
    requires c !in a
    ensures Split(a + [c] + b, c) == [a] + Split(b, c)
  {
    CutFirst(a, c, b);
  }

  /** Splitting a join recovers the list, provided no element holds the
      separator. */
  lemma {:induction false} SplitJoin(xs: seq<string>, c: char)
    requires |xs| > 0
    requires forall i :: 0 <= i < |xs| ==> c !in xs[i]
    ensures Split(Join(xs, [c]), c) == xs
    decreases |xs|
  {
    if |xs| == 1 {
      assert Cut(xs[0], c) == None;
    } else {
      SplitCons(xs[0], c, Join(xs[1..], [c]));
      SplitJoin(xs[1..], c);
      assert xs == [xs[0]] + xs[1..];
    }
  }

  /** Joining the pieces of a split gives back the text. */
  lemma {:induction false} JoinSplit(s: string, c: char)
    ensures Join(Split(s, c), [c]) == s
    decreases |s|
  {
    match Cut(s, c)
    case None =>
    case Some((a, b)) =>
      JoinSplit(b, c);
      assert Split(s, c) == [a] + Split(b, c);
      assert ([a] + Split(b, c))[1..] == Split(b, c);
  }

  /** `w` occurs in `t` starting at position `j`. */
  predicate OccursAt(w: string, t: string, j: int)
  {
    0 <= j && j + |w| <= |t| && t[j..j + |w|] == w
  }

  /** `w` occurs in `t` at some position. */
  predicate Occurs(w: string, t: string)
  {
    exists j | 0 <= j <= |t| :: OccursAt(w, t, j)
  }

  /** An occurrence inside an occurrence is an occurrence in the outer
      text. */
  lemma OccursWithin(w: string, x: string, t: string, j: int, k: int)
    requires OccursAt(w, x, j) && OccursAt(x, t, k)
    ensures OccursAt(w, t, k + j)
  {
    forall m | k + j <= m < k + j + |w|
      ensures t[m] == w[m - k - j]
    {
      assert t[m] == t[k..k + |x|][m - k] == x[m - k];
      assert x[m - k] == x[j..j + |w|][m - k - j];
    }
  }

  /** The middle of a concatenation occurs in it, after the first part. */
  lemma InfixOccurs(x: string, y: string, z: string)
    ensures OccursAt(y, x + y + z, |x|)
  {
    assert (x + y + z)[|x|..|x| + |y|] == y;
  }

  /** Both parts of a cut occur in the text: the first at its start, the
      second right after the separator. */
  lemma CutOccurs(s: string, c: char)
    requires Cut(s, c).Some?
    ensures OccursAt(Cut(s, c).value.0, s, 0)
    ensures OccursAt(Cut(s, c).value.1, s, |Cut(s, c).value.0| + 1)
  {
    PartsOccur(Cut(s, c).value.0, c, Cut(s, c).value.1);
  }

  /** The text on either side of a character occurs around it. */
  lemma PartsOccur(a: string, c: char, b: string)
    ensures OccursAt(a, a + [c] + b, 0)
    ensures OccursAt(b, a + [c] + b, |a| + 1)
  {
    InfixOccurs([], a, [c] + b);
    InfixOccurs(a + [c], b, []);
    assert [] + a + ([c] + b) == a + [c] + b + [] == a + [c] + b;
  }

  /** Putting text free of the separator in front of `s` only lengthens the
      first piece of the split. */
  lemma SplitAfterFree(x: string, s: string, c: char)
    requires c !in x
    ensures Split(x + s, c) == [x + Split(s, c)[0]] + Split(s, c)[1..]
  {
    match Cut(s, c)
    case None =>
      assert c !in x + s;
    case Some((a, b)) =>
      assert x + s == (x + a) + [c] + b;
      CutFirst(x + a, c, b);
  }

  /** Text that starts `a + [c] + r` and is longer than `a` holds `c`. */
  lemma LongPrefixHoldsSeparator(w: string, a: string, c: char, r: string)
    ensures w <= a + [c] + r && |w| > |a| ==> c in w
  {
    if w <= a + [c] + r && |w| > |a| {
      assert w[|a|] == (a + [c] + r)[|a|];
    }
  }

  /** Every position of `a + [c] + b` before `|a|` holds a character of `a`. */
  lemma BeforeSeparator(a: string, c: char, b: string, j: int)
    ensures 0 <= j < |a| ==> (a + [c] + b)[j] in a
  {
    if 0 <= j < |a| {
      assert (a + [c] + b)[j] == a[j];
    }
  }

  /** An occurrence in `b` is an occurrence in `a + [c] + b`, shifted past
      the `c`; and an occurrence there that starts after the `c` comes from
      one in `b`. */
  lemma ShiftOccurrence(w: string, a: string, c: char, b: string, j: int)
    ensures OccursAt(w, b, j) <==> |a| < j + |a| + 1 && OccursAt(w, a + [c] + b, j + |a| + 1)
  {
    var t := a + [c] + b;
    if 0 <= j && j + |w| <= |b| {
      assert forall m | |a| < m < |t| :: t[m] == b[m - |a| - 1];
      assert t[j + |a| + 1..j + |a| + 1 + |w|] == b[j..j + |w|];
    }
  }

  /** A separator-free `w` starts the text exactly when it starts the text's
      first piece. */
  lemma PrefixOfFirstPiece(b: string, c: char, w: string)
    requires c !in w
    ensures w <= b <==> w <= Split(b, c)[0]
  {
    match Cut(b, c)
    case None =>
    case Some((a, r)) =>
      LongPrefixHoldsSeparator(w, a, c, r);
      assert w <= b ==> |w| <= |a|;
      assert |w| <= |a| ==> b[..|w|] == a[..|w|];
  }

  /** An occurrence of `[c] + w` is `c` followed by an occurrence of `w`. */
  lemma OccursAtCons(c: char, w: string, t: string, j: int)
    ensures OccursAt([c] + w, t, j) <==> 0 <= j < |t| && t[j] == c && OccursAt(w, t, j + 1)
  {
    if 0 <= j && j + |w| + 1 <= |t| {
      assert t[j..j + |w| + 1] == [t[j]] + t[j + 1..j + 1 + |w|];
      assert ([c] + w)[0] == c && ([c] + w)[1..] == w;
    }
  }

  /** Piece `i` of `ps` starts with `w`. */
  predicate StartsPiece(ps: seq<string>, w: string, i: int)
  {
    0 <= i < |ps| && w <= ps[i]
  }

  /** An occurrence of the separator followed by `w` right after the first
      piece means `w` starts the second piece. */
  lemma OccursFirstPiece(a: string, c: char, b: string, w: string)
    requires c !in w
    requires OccursAt([c] + w, a + [c] + b, |a|)
    ensures StartsPiece(Split(b, c), w, 0)
  {
    OccursAtCons(c, w, a + [c] + b, |a|);
    ShiftOccurrence(w, a, c, b, 0);
    PrefixOfFirstPiece(b, c, w);
  }

  /** Piece `k` of the text after the first separator is piece `k + 1` of
      the whole text. */
  lemma PieceOfRest(t: string, c: char, w: string, k: nat)
    requires Cut(t, c).Some?
    ensures StartsPiece(Split(Cut(t, c).value.1, c), w, k) <==> StartsPiece(Split(t, c), w, k + 1)
  {
    var rest := Split(Cut(t, c).value.1, c);
    assert Split(t, c) == [Cut(t, c).value.0] + rest;
    if 0 <= k < |rest| {
      assert ([Cut(t, c).value.0] + rest)[k + 1] == rest[k];
    }
  }

  /** The first separator in the text is at the end of the first piece, so
      no separator comes before it. */
  lemma SeparatorAt(t: string, c: char, j: int)
    requires 0 <= j < |t| && t[j] == c
    ensures Cut(t, c).Some? && |Cut(t, c).value.0| <= j
  {
    var a, b := Cut(t, c).value.0, Cut(t, c).value.1;
    BeforeSeparator(a, c, b, j);
  }

  /** An occurrence of the separator followed by `w` lies at the start of
      some piece after the first, and that piece starts with `w`; `i` is
      that piece. */
  lemma {:induction false} OccursToPiece(t: string, c: char, w: string, j: int) returns (i: int)
    requires c !in w
    requires OccursAt([c] + w, t, j)
    ensures 1 <= i && StartsPiece(Split(t, c), w, i)
    decreases |t|, 1
  {
    OccursAtCons(c, w, t, j);
    SeparatorAt(t, c, j);
    if j == |Cut(t, c).value.0| {
      OccursFirstPiece(Cut(t, c).value.0, c, Cut(t, c).value.1, w);
      PieceOfRest(t, c, w, 0);
      i := 1;
    } else {
      i := OccursLater(t, c, w, j);
    }
  }

  /** An occurrence that starts after the first separator is an occurrence
      in the text after it, at position `k`. */
  lemma OccursInRest(t: string, c: char, w: string, j: int) returns (k: int)
    requires Cut(t, c).Some? && |Cut(t, c).value.0| < j
    requires OccursAt(w, t, j)
    ensures k == j - |Cut(t, c).value.0| - 1 && OccursAt(w, Cut(t, c).value.1, k)
  {
    var a, b := Cut(t, c).value.0, Cut(t, c).value.1;
    k := j - |a| - 1;
    ShiftOccurrence(w, a, c, b, k);
  }

  /** An occurrence past the first separator is one in the rest of the
      text, so it starts a later piece. */
  lemma {:induction false} OccursLater(t: string, c: char, w: string, j: int) returns (i: int)
    requires c !in w
    requires Cut(t, c).Some? && |Cut(t, c).value.0| < j
    requires OccursAt([c] + w, t, j)
    ensures 1 <= i && StartsPiece(Split(t, c), w, i)
    decreases |t|, 0
  {
    var j' := OccursInRest(t, c, [c] + w, j);
    var k := OccursToPiece(Cut(t, c).value.1, c, w, j');
    PieceOfRest(t, c, w, k);
    i := k + 1;
  }

  /** A separator-free `w` that starts the text after the first separator
      occurs, preceded by that separator, right after the first piece. */
  lemma FirstPieceOccurs(a: string, c: char, b: string, w: string)
    requires c !in w
    requires StartsPiece(Split(b, c), w, 0)
    ensures OccursAt([c] + w, a + [c] + b, |a|)
  {
    PrefixOfFirstPiece(b, c, w);
    ShiftOccurrence(w, a, c, b, 0);
    OccursAtCons(c, w, a + [c] + b, |a|);
  }

  /** A piece after the first that starts with `w` gives an occurrence of
      the separator followed by `w`, at position `j`. */
  lemma {:induction false} PieceToOccurs(t: string, c: char, w: string, i: int) returns (j: int)
    requires c !in w
    requires 1 <= i && StartsPiece(Split(t, c), w, i)
    ensures OccursAt([c] + w, t, j)
    decreases |t|, 1
  {
    assert Cut(t, c).Some?;
    PieceOfRest(t, c, w, i - 1);
    if i == 1 {
      FirstPieceOccurs(Cut(t, c).value.0, c, Cut(t, c).value.1, w);
      j := |Cut(t, c).value.0|;
    } else {
      j := PieceLater(t, c, w, i);
    }
  }

  /** A piece after the second that starts with `w` is a piece of the text
      after the first separator, so the occurrence lies there. */
  lemma {:induction false} PieceLater(t: string, c: char, w: string, i: int) returns (j: int)
    requires c !in w
    requires Cut(t, c).Some? && 2 <= i
    requires StartsPiece(Split(Cut(t, c).value.1, c), w, i - 1)
    ensures OccursAt([c] + w, t, j)
    decreases |t|, 0
  {
    var a, b := Cut(t, c).value.0, Cut(t, c).value.1;
    var k := PieceToOccurs(b, c, w, i - 1);
    ShiftOccurrence([c] + w, a, c, b, k);
    j := k + |a| + 1;
  }

  /** The separator followed by a separator-free `w` occurs in `t` exactly
      when some piece of `t` after the first starts with `w`. */
  lemma OccursAfterSeparator(t: string, c: char, w: string)
    requires c !in w
    ensures Occurs([c] + w, t) <==> exists i :: 1 <= i && StartsPiece(Split(t, c), w, i)
  {
    if Occurs([c] + w, t) {
      var j :| 0 <= j <= |t| && OccursAt([c] + w, t, j);
      var i := OccursToPiece(t, c, w, j);
      assert 1 <= i && StartsPiece(Split(t, c), w, i);
    }
    if exists i :: 1 <= i && StartsPiece(Split(t, c), w, i) {
      var i :| 1 <= i && StartsPiece(Split(t, c), w, i);
      var j := PieceToOccurs(t, c, w, i);
      assert 0 <= j <= |t| && OccursAt([c] + w, t, j);
    }
  }

  /** Text free of the separator, followed by a join, splits into the text
      glued to the first element and then the remaining elements. */
  lemma SplitHeadJoin(head: string, ps: seq<string>, c: char)
    requires c !in head
    requires |ps| > 0 && forall k :: 0 <= k < |ps| ==> c !in ps[k]
    ensures Split(head + Join(ps, [c]), c) == [head + ps[0]] + ps[1..]
  {
    SplitAfterFree(head, Join(ps, [c]), c);
    SplitJoin(ps, c);
  }

  /** Past the first, the pieces that start with `w` are the elements
      that do. */
  lemma LaterPieces(x: string, ps: seq<string>, w: string, i: int)
    requires |ps| > 0 && 1 <= i
    ensures StartsPiece([x] + ps[1..], w, i) <==> i < |ps| && w <= ps[i]
  {
    if i < |ps| {
      assert ([x] + ps[1..])[i] == ps[i];
    }
  }

  /** After text free of the separator, the separator followed by `w`
      occurs in a join exactly when some element after the first starts
      with `w`. */
  lemma OccursInJoin(head: string, ps: seq<string>, c: char, w: string)
    requires c !in head && c !in w
    requires |ps| > 0 && forall k :: 0 <= k < |ps| ==> c !in ps[k]
    ensures Occurs([c] + w, head + Join(ps, [c])) <==> exists i :: 1 <= i < |ps| && w <= ps[i]
  {
    var t := head + Join(ps, [c]);
    SplitHeadJoin(head, ps, c);
    OccursAfterSeparator(t, c, w);
    var pieces := [head + ps[0]] + ps[1..];
    if exists i :: 1 <= i < |ps| && w <= ps[i] {
      var i :| 1 <= i < |ps| && w <= ps[i];
      LaterPieces(head + ps[0], ps, w, i);
    }
    if exists i :: 1 <= i && StartsPiece(pieces, w, i) {
      var i :| 1 <= i && StartsPiece(pieces, w, i);
      LaterPieces(head + ps[0], ps, w, i);
    }
  }
}

=== FILE: urlparse.dfy ===
/** A reader for the URLs the builder writes.

  The client never parses URLs; this module is the builder's partner. It shows
  that, as long as no field holds the delimiter that ends it, the URL carries
  every field of the request back out unchanged, and that every URL the reader
  accepts is one the builder writes. Because the builder escapes nothing, a
  field that does hold its delimiter makes two requests share one URL.
 */
module UrlParse {
  import opened Text
  import opened Forecast

  /** No field of the path holds the delimiter that ends it. */
  predicate PathSafe(req: ApiRequest)
  {
    '/' !in req.key && ',' !in req.lat && '?' !in req.long
  }

  /** No query value holds `&`, the separator between parameters. */
  predicate ParamsSafe(req: ApiRequest)
  {
    && '&' !in req.units
    && '&' !in req.lang
    && forall i :: 0 <= i < |req.exclude| ==> '&' !in req.exclude[i]
  }

  /** No query value holds `&`, and no excluded name holds `,`. */
  predicate QuerySafe(req: ApiRequest)
  {
    && '&' !in req.units
    && '&' !in req.lang
    && forall i :: 0 <= i < |req.exclude| ==> '&' !in req.exclude[i] && ',' !in req.exclude[i]
  }

  /** No field holds the delimiter that ends it in the URL. */
  predicate UrlSafe(req: ApiRequest)
  {
    PathSafe(req) && QuerySafe(req)
  }

  /** The request with its unit system made explicit: an empty one is the
      default. Two requests with the same normal form are sent the same way. */
  function Normalize(req: ApiRequest): (n: ApiRequest)
    ensures |n.units| > 0
    ensures n.lat == req.lat && n.long == req.long && n.key == req.key
    ensures n.exclude == req.exclude && n.lang == req.lang
    ensures |req.units| > 0 ==> n == req
    ensures |req.units| == 0 ==> n.units == DefaultUnits
  {
    req.(units := UnitsValue(req))
  }

  /** The query parameters of a request's URL, in order, without the `&`
      between them. */
  function Params(req: ApiRequest): seq<string>
  {
    [UnitsParam(req)]
    + (if |req.exclude| > 0 then [ExcludeParam(req)] else [])
    + (if |req.lang| > 0 then [LangParam(req)] else [])
  }

  /** Reads the units, exclude list and language back from the query
      parameters: `units` first and non-empty, then an optional `exclude`,
      then an optional non-empty `lang`, and nothing else. */
  function ParseQuery(params: seq<string>): Option<(string, seq<string>, string)>
  {
    if |params| == 0 || !("units=" <= params[0]) || |params[0]| == 6 then None
    else
      var units := params[0][6..];
      var hasExclude := |params| > 1 && "exclude=" <= params[1];
      var exclude := if hasExclude then Split(params[1][8..], ',') else [];
      var rest := if hasExclude then params[2..] else params[1..];
      if |rest| == 0 then Some((units, exclude, ""))
      else if |rest| == 1 && "lang=" <= rest[0] && |rest[0]| > 5 then Some((units, exclude, rest[0][5..]))
      else None
  }

  /** Reads `key/lat,long?query` back: the key ends at the first `/`, the
      latitude at the first `,` after it, the longitude at the first `?`
      after that, and the query is the rest. */
  function ParsePath(s: string): Option<(string, string, string, string)>
  {
    match Cut(s, '/')
    case None => None
    case Some((key, afterKey)) =>
      match Cut(afterKey, ',')
      case None => None
      case Some((lat, afterLat)) =>
        match Cut(afterLat, '?')
        case None => None
        case Some((long, query)) => Some((key, lat, long, query))
  }

  /** Reads a request back from what follows the endpoint and its `/`. */
  function ParseRest(rest: string): Option<ApiRequest>
  {
    match ParsePath(rest)
    case None => None
    case Some((key, lat, long, query)) =>
      match ParseQuery(Split(query, '&'))
      case None => None
      case Some((units, exclude, lang)) => Some(ApiRequest(lat, long, key, exclude, lang, units))
  }

  /** Reads a request back from a URL: `None` for every URL the builder does
      not write (`BuildParse`), and the request for the URL of every
      `UrlSafe` request (`ParseBuild`). */
  function ParseUrl(u: string): Option<ApiRequest>
  {
    var prefix := BaseUrl + "/";
    if prefix <= u then ParseRest(u[|prefix|..]) else None
  }

  /** The optional segments are `&` and the parameters after `units` joined
      by `&`, or nothing when there are none. */
  lemma OptionalAsParams(req: ApiRequest)
    ensures ExcludeSegment(req) + LangSegment(req) ==
      if |Params(req)| > 1 then "&" + Join(Params(req)[1..], "&") else ""
  {
    var ex, lang := ExcludeParam(req), LangParam(req);
    var rest := Params(req)[1..];
    if |req.exclude| > 0 && |req.lang| > 0 {
      assert rest == [ex, lang];
      assert rest[1..] == [lang];
      Assoc4("&", ex, "&", lang);
    } else if |req.exclude| > 0 {
      assert rest == [ex];
    } else if |req.lang| > 0 {
      assert rest == [lang];
    } else {
      assert rest == [];
    }
  }

  /** The query parameters joined by `&` are the three query segments of
      the URL without the leading `?`. */
  lemma QueryAsParams(req: ApiRequest)
    ensures UnitsSegment(req) + ExcludeSegment(req) + LangSegment(req) == "?" + Join(Params(req), "&")
  {
    var ps := Params(req);
    var units, tail := UnitsParam(req), ExcludeSegment(req) + LangSegment(req);
    OptionalAsParams(req);
    assert ps[0] == units;
    assert Join(ps, "&") == units + tail;
    Assoc("?", units, tail);
    Assoc(UnitsSegment(req), ExcludeSegment(req), LangSegment(req));
  }

  /** The URL is the path, `?`, and the query parameters joined by `&`. */
  lemma UrlAsParams(req: ApiRequest)
    ensures Url(req) == PathSegment(req) + "?" + Join(Params(req), "&")
  {
    QueryAsParams(req);
    var p, q1, q2, q3 := PathSegment(req), UnitsSegment(req), ExcludeSegment(req), LangSegment(req);
    Assoc(p, q1 + q2, q3);
    Assoc(p, q1, q2);
    Assoc(p, "?", Join(Params(req), "&"));
  }

  /** Removing a prefix keeps a character out. */
  lemma NotInSuffix(s: string, k: nat, c: char)
    requires k <= |s|
    requires c !in s
    ensures c !in s[k..]
  {
  }

  /** No parameter holds `&` when no query value does. */
  lemma ParamsFree(req: ApiRequest)
    requires ParamsSafe(req)
    ensures forall i :: 0 <= i < |Params(req)| ==> '&' !in Params(req)[i]
  {
    var ps := Params(req);
    assert '&' !in "units=";
    if |req.exclude| > 0 {
      JoinFree(req.exclude, ExcludeSeparator, '&');
      assert '&' !in "exclude=";
    }
    assert '&' !in "lang=";
    forall i | 0 <= i < |ps|
      ensures '&' !in ps[i]
    {
    }
  }

  /** When no query value holds `&`, the query splits into exactly the
      parameters. */
  lemma SplitParams(req: ApiRequest)
    requires ParamsSafe(req)
    ensures Split(Join(Params(req), "&"), '&') == Params(req)
  {
    ParamsFree(req);
    SplitJoin(Params(req), '&');
  }

  /** The query reader inverts `Params` on URL-safe requests. */
  lemma ParseParams(req: ApiRequest)
    requires UrlSafe(req)
    ensures ParseQuery(Params(req)) == Some((UnitsValue(req), req.exclude, req.lang))
  {
    var ps := Params(req);
    assert ps[0] == "units=" + UnitsValue(req);
    assert ps[0][6..] == UnitsValue(req);
    if |req.exclude| > 0 {
      var joined := Join(req.exclude, ExcludeSeparator);
      assert ps[1] == "exclude=" + joined;
      assert ps[1][8..] == joined;
      SplitJoin(req.exclude, ',');
    } else if |req.lang| > 0 {
      assert ps[1] == "lang=" + req.lang;
      assert !("exclude=" <= ps[1]) by { assert ps[1][0] == 'l'; }
    }
    if |req.lang| > 0 {
      var rest := if |req.exclude| > 0 then ps[2..] else ps[1..];
      assert rest == ["lang=" + req.lang];
      assert rest[0][5..] == req.lang;
    }
  }

  /** The path reader finds the key, latitude and longitude again when none
      of them holds its own delimiter. */
  lemma ParsePathOfPath(key: string, lat: string, long: string, query: string)
    requires '/' !in key && ',' !in lat && '?' !in long
    ensures ParsePath(key + "/" + lat + "," + long + "?" + query) == Some((key, lat, long, query))
  {
    var afterLat := long + "?" + query;
    var afterKey := lat + "," + afterLat;
    assert key + "/" + lat + "," + long + "?" + query == key + "/" + afterKey;
    CutFirst(key, '/', afterKey);
    CutFirst(lat, ',', afterLat);
    CutFirst(long, '?', query);
  }

  /** Reading back the URL of a URL-safe request gives the request, with an
      empty unit system read as the default. */
  lemma ParseBuild(req: ApiRequest)
    requires UrlSafe(req)
    ensures ParseUrl(Url(req)) == Some(Normalize(req))
  {
    var prefix := BaseUrl + "/";
    var query := Join(Params(req), "&");
    var rest := KeyAndPlace(req) + "?" + query;
    var u := Url(req);
    assert u == prefix + rest by {
      UrlAsParams(req);
      Assoc4(prefix, KeyAndPlace(req), "?", query);
    }
    assert u[|prefix|..] == rest;
    ParseRestOfPath(req);
  }

  /** What follows the endpoint in a URL-safe request's URL reads back as
      the request. */
  lemma ParseRestOfPath(req: ApiRequest)
    requires UrlSafe(req)
    ensures ParseRest(KeyAndPlace(req) + "?" + Join(Params(req), "&")) == Some(Normalize(req))
  {
    var query := Join(Params(req), "&");
    ParsePathOfPath(req.key, req.lat, req.long, query);
    SplitParams(req);
    ParseParams(req);
  }

  /** The query reader accepts only the parameters of some request, and that
      request asks for a unit system explicitly. */
  lemma ParsedParams(params: seq<string>, lat: string, long: string, key: string)
    requires forall i :: 0 <= i < |params| ==> '&' !in params[i]
    requires ParseQuery(params).Some?
    ensures var (units, exclude, lang) := ParseQuery(params).value;
      var req := ApiRequest(lat, long, key, exclude, lang, units);
      && |units| > 0
      && QuerySafe(req)
      && Params(req) == params
  {
    var (units, exclude, lang) := ParseQuery(params).value;
    var req := ApiRequest(lat, long, key, exclude, lang, units);
    assert params[0] == "units=" + units;
    NotInSuffix(params[0], 6, '&');
    var hasExclude := |params| > 1 && "exclude=" <= params[1];
    var exParams: seq<string> := [];
    if hasExclude {
      var v := params[1][8..];
      JoinSplit(v, ',');
      NotInSuffix(params[1], 8, '&');
      JoinFree(exclude, ExcludeSeparator, '&');
      assert params[1] == "exclude=" + Join(exclude, ExcludeSeparator);
      exParams := [params[1]];
    }
    var rest := if hasExclude then params[2..] else params[1..];
    var langParams: seq<string> := [];
    if |rest| == 1 {
      assert rest[0] == "lang=" + lang;
      NotInSuffix(rest[0], 5, '&');
      langParams := [rest[0]];
    }
    assert rest == langParams;
    assert params == [params[0]] + exParams + rest;
    assert Params(req) == [params[0]] + exParams + langParams;
  }

  /** The path reader accepts exactly text of the form `key/lat,long?query`
      whose key, latitude and longitude hold no delimiter of their own. */
  lemma ParsedPath(s: string)
    requires ParsePath(s).Some?
    ensures var (key, lat, long, query) := ParsePath(s).value;
      && '/' !in key && ',' !in lat && '?' !in long
      && s == key + "/" + lat + "," + long + "?" + query
  {
    var (key, afterKey) := Cut(s, '/').value;
    var (lat, afterLat) := Cut(afterKey, ',').value;
    var (long, query) := Cut(afterLat, '?').value;
    calc {
      s;
      key + "/" + (lat + "," + (long + "?" + query));
      { Assoc(key + "/", lat + ",", long + "?" + query); Assoc(key + "/", lat, ","); }
      key + "/" + lat + "," + (long + "?" + query);
      { Assoc(key + "/" + lat + ",", long + "?", query); Assoc(key + "/" + lat + ",", long, "?"); }
      key + "/" + lat + "," + long + "?" + query;
    }
  }

  /** Whatever `ParseRest` accepts is the key, coordinates and query of the
      request it reads, and that request is URL-safe. */
  lemma ParsedRest(rest: string)
    requires ParseRest(rest).Some?
    ensures var req := ParseRest(rest).value;
      && UrlSafe(req)
      && |req.units| > 0
      && rest == KeyAndPlace(req) + "?" + Join(Params(req), "&")
  {
    ParsedPath(rest);
    var (key, lat, long, query) := ParsePath(rest).value;
    var ps := Split(query, '&');
    ParsedParams(ps, lat, long, key);
    JoinSplit(query, '&');
  }

  /** Every URL the reader accepts is the URL the builder writes for what it
      reads, and what it reads is URL-safe with an explicit unit system. */
  lemma BuildParse(u: string)
    requires ParseUrl(u).Some?
    ensures var req := ParseUrl(u).value;
      && UrlSafe(req)
      && Normalize(req) == req
      && Url(req) == u
  {
    var prefix := BaseUrl + "/";
    var rest := u[|prefix|..];
    var req := ParseRest(rest).value;
    var query := Join(Params(req), "&");
    ParsedRest(rest);
    assert u == prefix + rest;
    assert Url(req) == u by {
      UrlAsParams(req);
      Assoc4(prefix, KeyAndPlace(req), "?", query);
    }
  }

  /** On URL-safe requests the URL determines the request up to the default
      unit system, and requests that agree up to it share a URL. */
  lemma UrlInjective(a: ApiRequest, b: ApiRequest)
    requires UrlSafe(a) && UrlSafe(b)
    ensures Url(a) == Url(b) <==> Normalize(a) == Normalize(b)
  {
    if Url(a) == Url(b) {
      ParseBuild(a);
      ParseBuild(b);
    }
    if Normalize(a) == Normalize(b) {
      SameUrlAsNormal(a);
      SameUrlAsNormal(b);
    }
  }

  /** Spelling out the default unit system changes nothing in the URL. */
  lemma SameUrlAsNormal(req: ApiRequest)
    ensures Url(Normalize(req)) == Url(req)
  {
  }

  /** Without escaping, a latitude holding `,` or an excluded name holding
      `,` gives two different requests the same URL. */
  lemma AmbiguousWithoutEscaping()
    ensures var a := ApiRequest("1,2", "3", "k", ["a,b"], "", "");
      var b := ApiRequest("1", "2,3", "k", ["a", "b"], "", "");
      a != b && Url(a) == Url(b)
  {
  }
}
